=== FILE: README.md ===
# Suggestion inbox of the Khalsiratii Telegram bot, in Dafny

The bot (`khalsiratii.js`) lets any user press "🧕 Предложка" and send one message, text or media, which is stored in the `messages` table for the channel admin. The admin lists the stored messages, presses "Ответить" under one of them, and the admin's next message is forwarded to the original sender. This project models that inbox and reply routing as a pure, sequential transition system and proves its properties. It also models the per-catalog join behind the `/admin` statistics text.

Modules, one per concern:

- `Optional` (`optional.dfy`): a value that may be missing. It stands for SQL NULL, an absent message field and a failed lookup.
- `Digits` (`digits.dfy`): decimal rendering of ids and reading a digit run back. Also the admin test, which compares the sender id's string with `ADMIN_ID`.
- `Payload` (`payload.dfy`): the `reply-<id>` callback payload and the `^reply-(\d+)$` pattern. It includes a one-pass scanning method proved equal to the parse.
- `Content` (`content.dfy`): which field of an inbound message is stored as a suggestion and which is forwarded as a reply. The two paths test the media kinds in different orders.
- `Inbox` (`inbox.dfy`): the state and the transitions. The state is the row sequence, the `suggestionClicked` map, `unreadMessagesCount` and the per-chat reply binding. The transitions are the suggestion button, the `reply-<id>` callback and the four-way message handler.
- `InboxProperties` (`inbox_properties.dfy`): what each branch changes and leaves alone, the state invariant, the monotone `replied` flag, and the counter against the table.
- `Listing` (`listing.dfy`): how one stored row is shown to the admin with its reply button.
- `Stats` (`stats.dfy`): the `/admin` text.
- `Scenarios` (`scenarios.dfy`): one complete suggestion-and-reply trace.

Modelling decisions, each following what the code does:

- The admin pressing the suggestion button sets the admin's own flag (line 186). So an admin message with no binding and the flag set is stored as a suggestion. The self-notification branch is taken only when the flag is not set.
- The reply branch tests `ctx.session.replyToUser` for truthiness. A binding whose user id is 0 therefore does not count as a binding (`Inbox.HasBinding`).
- The `/start` and `/admin` commands are registered before every other handler and do not pass the update on. A message invoking them therefore never reaches the suggestion handler, even from a sender whose flag is set.
- Sessions are grammY's default per-chat sessions, so bindings are kept per chat. The callback handler has no admin check and binds in whatever chat it comes from. Only the admin's messages ever use a binding.
- The callback keeps the captured digits as a string. SQLite compares that string with the INTEGER key by numeric value. So `reply-007` addresses row 7, and the model reads the digits as a number (`Payload.LeadingZerosAlias`).
- A text-only insert leaves `media_type` and `media_id` NULL. A media insert leaves `message` NULL. A message with neither text nor any of the six media kinds (a sticker, say) is stored with empty `media_type` and `media_id`. Such a row is confirmed to the sender and counted unread, but it carries no content and the listing never shows it. `Content.ExclusiveColumns` states only which columns are NULL; `Content.CarriesContent` states whether the row holds something to show.
- A photo list is truthy even when empty. `pop()` then yields `undefined`, and reading its `file_id` throws. Capture throws before anything is stored. Reply delivery throws after the row is marked replied and the notice is sent, so the binding and the counter stay unchanged. Both paths are modelled as `Content.Outcome.TypeError`.
- A binding holds the user id stored in the looked-up row, and rows are never deleted or rewritten. So every binding names an existing row and that row's sender; `Inbox.Valid` states this.

## Model

| member | source | states |
|---|---|---|
| Digits.ToNatFromNat | khalsiratii.js:297 | Reading back the decimal string the bot writes for an id gives the id again |
| Digits.FromNatToNat | khalsiratii.js:388-390 | A digit string without a leading zero is exactly the rendering of the number it denotes |
| Digits.AdminIsUnique | khalsiratii.js:296-302 | The string comparison with `ADMIN_ID` admits at most one account id |
| Payload.Format | khalsiratii.js:252 | Every `reply-${id}` payload the listing builds matches the callback pattern |
| Payload.Parse | khalsiratii.js:388-389 | A payload yields a row id exactly when it matches `^reply-(\d+)$` |
| Payload.Scan | khalsiratii.js:388-389 | A single left-to-right scan recognises and reads the payload exactly as the pattern and the parse do |
| Payload.FormatThenParse | khalsiratii.js:200 | The payload built for row `id` parses back to `id` |
| Payload.ParseThenFormat | khalsiratii.js:388-389 | A matching payload without a leading zero is exactly the payload the bot builds for its id |
| Payload.FormatInjective | khalsiratii.js:252 | Buttons of different rows carry different payloads |
| Payload.NonDigitSuffixRefused | khalsiratii.js:388 | A payload whose suffix has any non-digit is not handled |
| Payload.LeadingCharactersRefused | khalsiratii.js:388 | Anything before `reply-` stops the match (anchor `^`) |
| Payload.TrailingCharactersRefused | khalsiratii.js:388 | A non-digit after the id stops the match (anchor `$`) |
| Digits.ToNatLeadingZeros | khalsiratii.js:389-390 | Any run of leading zeros before a digit string leaves the number it denotes unchanged |
| Payload.LeadingZerosAlias | khalsiratii.js:389-390 | For every id and every non-empty run of zeros, `reply-` + zeros + id is a payload the bot never builds, yet it is accepted and looks up that same row (`reply-007` addresses row 7) |
| Content.KindFromName | khalsiratii.js:206-237 | The listing recognises a stored media type only as the name of that kind |
| Content.FirstFrom | khalsiratii.js:344-363 | Finds the first media kind, in a given test order, that the message carries, with none earlier |
| Content.Capture | khalsiratii.js:340-366 | Text if present (no media columns), else the first of photo > video > document > audio > voice > video_note with its file id (a photo's last size), else empty type and id; an empty photo list throws; either the text column alone or both media columns are non-NULL, never both |
| Content.ReplyContent | khalsiratii.js:308-323 | The reply forwards the text if present, else the first of voice > video > photo > audio > document > video_note, else nothing; an empty photo list throws |
| Content.CaptureCarriesContent | khalsiratii.js:340-366 | A captured row holds a non-empty text or a recognised media kind exactly when the message had a text or one of the six media kinds; anything else is stored as an empty row |
| Content.CaptureAndReplyOrdersDiffer | khalsiratii.js:308-363 | A message with both a photo and a voice note is stored as the photo but forwarded as the voice note |
| Content.TypeErrorOnlyOnEmptyPhoto | khalsiratii.js:314-347 | Each path throws exactly when an empty photo list is the first content it reaches |
| Inbox.RowIndex | khalsiratii.js:390 | The lookup by id finds a row with that id, or reports that none has it |
| Inbox.MarkReplied | khalsiratii.js:305 | The update sets `replied` on the rows with the given id and changes nothing else |
| Inbox.PressSuggestion | khalsiratii.js:173-191 | The sender's flag becomes true, admin or not; other flags, rows, counter and bindings are unchanged; the admin gets the menu prompt, others the invitation |
| Inbox.ReplyCallback | khalsiratii.js:388-399 | A matching payload for an existing row binds this chat to that row's sender and id; for a missing row the state is unchanged and the not-found alert is shown; a non-matching payload is ignored; no other chat's binding changes |
| Inbox.DeliverReply | khalsiratii.js:302-333 | Marks the bound row replied; sends the bound user the notice and then the admin's text or first media item in reply order (nothing more if there is none); confirms to the admin; clears the chat's binding and decrements the counter only if positive; the flags are untouched; on the empty-photo throw only the notice goes out and the binding and counter stay |
| Inbox.CaptureSuggestion | khalsiratii.js:335-374 | Appends one unreplied row owned by the sender with the next id, clears only the sender's flag, grows the counter by one and notifies the admin with the new count; an empty photo list changes nothing |
| Inbox.Dispatch | khalsiratii.js:302-385 | The message handler's four branches are exclusive, with a binding (for the admin) taking precedence over the flag and the flag over the sender's role |
| Inbox.CommandWordEnd | khalsiratii.js:77-96 | After `/start` or `/admin`, the text invokes the command exactly when the next character closes the command word, as `Inbox.EndsCommand` approximates it: `/start привет` does, `/startпривет` and `/start/x` do not |
| Inbox.Route | khalsiratii.js:77-193 | A text invoking `/start` or `/admin` goes to its command handler; an exact keyword text goes to its `hears` handler; exactly the remaining messages reach the generic handler |
| Inbox.OnMessage | khalsiratii.js:295-386 | The `bot.on('message')` handler: it adds a row exactly when the capture branch runs without throwing, and otherwise keeps the row count; only a delivery changes the bindings and only a capture the flags. What each branch does is stated by `Inbox.Dispatch` and the `InboxProperties` branch lemmas |
| Inbox.Apply | khalsiratii.js:77-399 | One update through the handler chain: commands and the other keywords leave the state as it was; only a message can change the table, by at most one row. That every update keeps `Inbox.Valid` and only turns `replied` on is stated by `InboxProperties.ApplyKeepsValid` and `InboxProperties.ApplyRowsEvolve` |
| InboxProperties.TypingKeywordFlagsTypist | khalsiratii.js:173-191 | Typing "🧕 Предложка" sets the typist's own suggestion flag and no other, and stores nothing |
| InboxProperties.PressIdempotent | khalsiratii.js:186-188 | Pressing the suggestion button again changes nothing |
| InboxProperties.FlaggedMessageIsCaptured | khalsiratii.js:335-374 | A flagged sender without a binding in use gets exactly one new row (own id, not replied, the classified content); the flag is cleared and the counter grows by one |
| InboxProperties.FlaggedEmptyPhotoChangesNothing | khalsiratii.js:344-347 | A flagged message with an empty photo list throws before any state change |
| InboxProperties.AdminPressThenMessageIsCaptured | khalsiratii.js:173-191 | After the admin presses the button, the admin's next unbound message is stored as the admin's suggestion |
| InboxProperties.UnflaggedUserIsReminded | khalsiratii.js:376-378 | A non-admin without the flag only gets the reminder; the state is unchanged |
| InboxProperties.AdminWithoutTargetNotifiesSelf | khalsiratii.js:379-384 | The admin with neither binding nor flag only raises the counter and notifies itself |
| InboxProperties.BoundAdminMessageIsDelivered | khalsiratii.js:302-333 | Through a binding, only the bound row becomes replied and no row is added; the bound user receives the notice and the admin's content; the binding is gone; the counter decrements without underflow; the flags are unchanged even when the admin's own flag is set |
| InboxProperties.BindingServesOneReply | khalsiratii.js:326-327 | After a reply the chat has no binding, so the admin's next message there is not a delivery |
| InboxProperties.NoBindingMarksNothing | khalsiratii.js:335-385 | Without a binding in use, a message leaves every existing row as it was |
| InboxProperties.KeywordIsNeverCaptured | khalsiratii.js:77-193 | A keyword text or a `/start` or `/admin` command never adds a row |
| InboxProperties.CommandChangesNothing | khalsiratii.js:77-116 | A `/start` or `/admin` command leaves the inbox state exactly as it was; a set suggestion flag stays set |
| InboxProperties.ApplyRowsEvolve | khalsiratii.js:305 | No update removes or reorders rows, and `replied` only ever goes from 0 to 1 |
| InboxProperties.ApplyKeepsValid | khalsiratii.js:335-399 | Every update keeps ids in insertion order and, in every row, either the text column alone or both media columns non-NULL, and keeps every binding naming an existing row and its sender |
| InboxProperties.CallbackKeepsValid | khalsiratii.js:390-394 | A `reply-<id>` callback keeps the state well-formed; a new binding names the looked-up row and that row's sender |
| InboxProperties.DeliverKeepsValid | khalsiratii.js:302-331 | Delivering a reply keeps row ids, contents and the remaining bindings well-formed |
| InboxProperties.CaptureKeepsValid | khalsiratii.js:341-366 | Capturing a suggestion appends a row with the next id whose text or media columns alone are non-NULL, and keeps every binding valid |
| InboxProperties.TargetsKept | khalsiratii.js:393-394 | A binding that names a row and its sender still does after rows evolve |
| InboxProperties.UnrepliedAppend | khalsiratii.js:50 | Appending a row adds one to the unreplied count exactly when it is unreplied |
| InboxProperties.UnrepliedMarkOne | khalsiratii.js:305 | Marking the one row with an id lowers the unreplied count by one exactly when it was unreplied |
| InboxProperties.CaptureKeepsSync | khalsiratii.js:365-372 | If the counter equals the number of unreplied rows, it still does after a capture |
| InboxProperties.FirstReplyKeepsSync | khalsiratii.js:305-331 | A reply to a still-unreplied row keeps the counter equal to the number of unreplied rows |
| InboxProperties.RepeatReplyDrifts | khalsiratii.js:329-331 | A second reply to an already replied row still decrements, leaving the counter one below the table |
| InboxProperties.SelfNotifyDrifts | khalsiratii.js:379-383 | The admin's self-notification leaves the counter one above the table |
| Listing.RenderRow | khalsiratii.js:199-238 | A row is listed exactly when it carries a non-empty text or a recognised media type; its button payload parses back to the row's id, and a media item is re-sent as the kind named in `media_type` |
| Listing.CapturedRowIsListed | khalsiratii.js:203-237 | A captured suggestion is listed with the same text, or the same media kind and file id; one stored with empty type is never listed |
| Listing.ButtonBindsSender | khalsiratii.js:388-395 | Pressing the button under a listed row binds the chat to that row's sender and id |
| Stats.TodayOf | khalsiratii.js:103 | Today's count for a name is that of the first same-named entry, or 0 when there is none |
| Stats.Join | khalsiratii.js:102-105 | One line per all-time entry, in input order, with its name and total and today's count for the same name |
| Stats.LineInPlace | khalsiratii.js:102-110 | The i-th rendered line comes from the i-th entry, after the lines before it and before the lines after it |
| Stats.OneLinePerTotal | khalsiratii.js:102-105 | With single-line names, a section has exactly one line per all-time entry |
| Stats.MissingTodayIsZero | khalsiratii.js:109 | An entry with no today counterpart is reported with 0 for today |
| Stats.AdminReport | khalsiratii.js:96-116 | The `/admin` reply: for the admin it opens with the title and the four headline counts; anyone else gets the refusal. Where each section line sits is stated by `Stats.SocialLineInReport` and `Stats.BookLineInReport`, and the line count by `Stats.ReportLineCount` |
| Stats.SocialLineInReport | khalsiratii.js:101-105 | The i-th social line of the admin's report comes from the i-th all-time social entry with today's social count for the same name, after the header, the title and the earlier lines |
| Stats.BookLineInReport | khalsiratii.js:107-111 | The i-th book line comes from the i-th all-time book entry with today's book count for the same name, after the whole social section, the book title and the earlier lines |
| Stats.ReportLineCount | khalsiratii.js:96-116 | The admin's report has nine fixed lines plus one per social and one per book entry; anyone else gets the refusal |
| Scenarios.HelloHiBack | khalsiratii.js:173-399 | A user presses the button and writes "Hello"; row 1 is stored and the admin is told of 1 unread; the admin binds to row 1 and writes "Hi back"; the row is replied, the user gets the notice and "Hi back", the binding is cleared and the counter is 0 |

## Left out

- grammY transport: keyboards, session middleware and the actual sending. Sends are recorded as `Inbox.Effect` values, and keyboard layouts are not modelled.
- Inbox.CommandWordEnd: `Inbox.EndsCommand` takes every non-ASCII character to continue the command word. Telegram ends the word at any non-word character of any script (an em dash, a no-break space, an emoji), so `/start—x` is a command in Telegram but not in this model. Telling word characters from others across Unicode is out of reach here.
- Inbox.Route: where a command word ends is approximated as `Inbox.CommandWordEnd` describes. Commands and keywords are also matched on the message text only. grammY's `hears` also matches a caption, so a media message captioned with a keyword goes to that keyword's handler; the model sends it to the generic handler. A command addressed to the bot by name (`/start@botname`) is also routed to the generic handler here, because the bot's username is not part of the model.
- SQLite I/O, table creation and the `fs.existsSync` start-up check (lines 17-75). The `messages` table is a sequence whose ids are assigned 1, 2, 3, … in insertion order. AUTOINCREMENT does this because rows are never deleted.
- The timestamp column, the logger, `console.log` and the top-level error handler (lines 401-404). A thrown TypeError is modelled only as the handler stopping where it throws.
- `utils/helpers.js` is not part of this model. `isAdmin` is modelled as the string comparison done at line 302. Which rows `getMessages` returns, in which order and with which filter, is not modelled. So the "unreplied only" listing guarantee is not stated, and `Listing` renders any given row.
- The `/start` user bookkeeping, the interaction log (lines 119-122) and the per-catalog request log (lines 124-138). These touch only tables outside the inbox.
- The `/admin` counts themselves come from `getUsageStats`, which is not part of this model. `Stats` takes them as input. What the report shows for an empty store therefore depends on that helper and is not stated.
- Catalog message formatting (lines 129-134) and `utils/buttons.js`. Only the four catalog names appear, as keywords in `Inbox.OtherKeywords`.
- Process restarts. `suggestionClicked`, `unreadMessagesCount` and the in-memory sessions (lines 13-15, 170-171) start empty again while the table persists. The model covers one process lifetime, so `InboxProperties.InSync` does not survive a restart and nothing states otherwise.
- Failing sends. Every outbound message is taken to succeed. In the code a `ctx.reply` that throws at line 369 leaves the row inserted and the flag still set, and a failing send in the reply branch stops it part-way; these outcomes are not modelled.
- Asynchronous interleaving of handlers. The model is sequential: one update is applied completely before the next.
- `ADMIN_ID` is taken to be set. An unset variable makes the comparison at line 302 always false. That case behaves like `Digits.NonCanonicalAdminIdMatchesNobody`, but no member models it.

=== FILE: content.dfy ===
/**
 * What an inbound Telegram message carries, and the two ways the bot picks
 * one piece of it: to store as a suggestion, and to forward as the admin's
 * reply. The two paths test the media fields in different orders.
 */
module Content {
  import opened Optional

  /** An opaque file reference assigned by Telegram. */
  type FileId = string

  /**
   * The fields of an inbound message the bot looks at. `photo` holds the
   * file ids of the photo's size list in Telegram's order (largest last);
   * every other media field holds the one `file_id` of that object.
   */
  datatype Inbound = Inbound(
    text: Option<string>,
    photo: Option<seq<FileId>>,
    video: Option<FileId>,
    document: Option<FileId>,
    audio: Option<FileId>,
    voice: Option<FileId>,
    videoNote: Option<FileId>)

  datatype MediaKind = Photo | Video | Document | Audio | Voice | VideoNote

  /** The `media_type` string stored for each kind. */
  function KindName(k: MediaKind): string {
    match k
    case Photo => "photo"
    case Video => "video"
    case Document => "document"
    case Audio => "audio"
    case Voice => "voice"
    case VideoNote => "video_note"
  }

  /** The listing's dispatch on a stored `media_type` string; any other string sends nothing. */
  function KindFromName(t: string): (r: Option<MediaKind>)
    ensures r.Some? ==> KindName(r.value) == t
  {
    if t == "photo" then Some(Photo)
    else if t == "video" then Some(Video)
    else if t == "document" then Some(Document)
    else if t == "audio" then Some(Audio)
    else if t == "voice" then Some(Voice)
    else if t == "video_note" then Some(VideoNote)
    else None
  }

  /** Every kind the bot stores is recognised again by the listing. */
  lemma KindNameRoundTrip(k: MediaKind)
    ensures KindFromName(KindName(k)) == Some(k)
  {
  }

  /** `if (ctx.message.text)`: an empty text is falsy. */
  predicate HasText(m: Inbound) {
    m.text.Some? && m.text.value != ""
  }

  /** The media field of kind `k` is present; a photo list is truthy even when empty. */
  predicate Has(m: Inbound, k: MediaKind) {
    match k
    case Photo => m.photo.Some?
    case Video => m.video.Some?
    case Document => m.document.Some?
    case Audio => m.audio.Some?
    case Voice => m.voice.Some?
    case VideoNote => m.videoNote.Some?
  }

  /**
   * The `file_id` read from the field of kind `k`. For a photo it is that of
   * the list's last element; an empty list yields `undefined`, and reading
   * `file_id` of it throws (None here).
   */
  function FileOf(m: Inbound, k: MediaKind): Option<FileId>
    requires Has(m, k)
  {
    match k
    case Photo => if |m.photo.value| > 0 then Some(m.photo.value[|m.photo.value| - 1]) else None
    case Video => Some(m.video.value)
    case Document => Some(m.document.value)
    case Audio => Some(m.audio.value)
    case Voice => Some(m.voice.value)
    case VideoNote => Some(m.videoNote.value)
  }

  /** The order in which suggestion capture tests the media fields. */
  const CaptureOrder: seq<MediaKind> := [Photo, Video, Document, Audio, Voice, VideoNote]

  /** The order in which reply delivery tests the media fields. */
  const ReplyOrder: seq<MediaKind> := [Voice, Video, Photo, Audio, Document, VideoNote]

  /** The position in `order`, from `from` on, of the first kind the message has. */
  function FirstFrom(m: Inbound, order: seq<MediaKind>, from: nat): (r: Option<nat>)
    requires from <= |order|
    ensures r.None? ==> forall i :: from <= i < |order| ==> !Has(m, order[i])
    ensures r.Some? ==> from <= r.value < |order| && Has(m, order[r.value])
    ensures r.Some? ==> forall i :: from <= i < r.value ==> !Has(m, order[i])
    decreases |order| - from
  {
    if from == |order| then None
    else if Has(m, order[from]) then Some(from)
    else FirstFrom(m, order, from + 1)
  }

  /** The first kind in `order` that the message has, if any. */
  function First(m: Inbound, order: seq<MediaKind>): Option<MediaKind> {
    match FirstFrom(m, order, 0)
    case Some(i) => Some(order[i])
    case None => None
  }

  /** A handler's outcome: its value, or the TypeError thrown on an empty photo list. */
  datatype Outcome<+T> = Ok(value: T) | TypeError

  /** The `message`, `media_type` and `media_id` columns of a stored suggestion (None is NULL). */
  datatype Stored = Stored(message: Option<string>, mediaType: Option<string>, mediaId: Option<string>)

  /**
   * The shape of every insert: either `message` holds a non-empty text and
   * both media columns are NULL, or `message` is NULL and both media
   * columns are non-NULL. The media strings may be empty: a message with no
   * text and none of the six kinds (a sticker, say) is stored as `''`/`''`,
   * so this says which columns are NULL, not that the row carries content.
   */
  predicate ExclusiveColumns(c: Stored) {
    || (c.message.Some? && c.message.value != "" && c.mediaType.None? && c.mediaId.None?)
    || (c.message.None? && c.mediaType.Some? && c.mediaId.Some?)
  }

  /** A stored row holds something that can be shown: a non-empty text or a recognised media kind. */
  predicate CarriesContent(c: Stored) {
    || (c.message.Some? && c.message.value != "")
    || (c.mediaType.Some? && KindFromName(c.mediaType.value).Some?)
  }

  /**
   * What suggestion capture inserts for a message: its text, or else the
   * first media kind in capture order with its file id, or else empty
   * `media_type` and `media_id` strings.
   */
  function Capture(m: Inbound): (r: Outcome<Stored>)
    ensures r.Ok? ==> ExclusiveColumns(r.value)
    ensures HasText(m) ==> r == Ok(Stored(Some(m.text.value), None, None))
    ensures !HasText(m) && First(m, CaptureOrder).None? ==> r == Ok(Stored(None, Some(""), Some("")))
    ensures !HasText(m) && First(m, CaptureOrder).Some? ==>
      var k := First(m, CaptureOrder).value;
      r == (if FileOf(m, k).Some? then Ok(Stored(None, Some(KindName(k)), FileOf(m, k))) else TypeError)
  {
    if HasText(m) then Ok(Stored(Some(m.text.value), None, None))
    else if m.photo.Some? then
      (if |m.photo.value| > 0 then Ok(Stored(None, Some("photo"), Some(m.photo.value[|m.photo.value| - 1])))
       else TypeError)
    else if m.video.Some? then Ok(Stored(None, Some("video"), Some(m.video.value)))
    else if m.document.Some? then Ok(Stored(None, Some("document"), Some(m.document.value)))
    else if m.audio.Some? then Ok(Stored(None, Some("audio"), Some(m.audio.value)))
    else if m.voice.Some? then Ok(Stored(None, Some("voice"), Some(m.voice.value)))
    else if m.videoNote.Some? then Ok(Stored(None, Some("video_note"), Some(m.videoNote.value)))
    else Ok(Stored(None, Some(""), Some("")))
  }

  /** A piece of content sent to a user. */
  datatype Outgoing = OutText(body: string) | OutMedia(kind: MediaKind, file: FileId)

  /**
   * What reply delivery forwards to the bound user after the fixed notice:
   * the text, or else the first media kind in reply order, or else nothing.
   */
  function ReplyContent(m: Inbound): (r: Outcome<Option<Outgoing>>)
    ensures HasText(m) ==> r == Ok(Some(OutText(m.text.value)))
    ensures !HasText(m) && First(m, ReplyOrder).None? ==> r == Ok(None)
    ensures !HasText(m) && First(m, ReplyOrder).Some? ==>
      var k := First(m, ReplyOrder).value;
      r == (if FileOf(m, k).Some? then Ok(Some(OutMedia(k, FileOf(m, k).value))) else TypeError)
  {
    if HasText(m) then Ok(Some(OutText(m.text.value)))
    else if m.voice.Some? then Ok(Some(OutMedia(Voice, m.voice.value)))
    else if m.video.Some? then Ok(Some(OutMedia(Video, m.video.value)))
    else if m.photo.Some? then
      (if |m.photo.value| > 0 then Ok(Some(OutMedia(Photo, m.photo.value[|m.photo.value| - 1])))
       else TypeError)
    else if m.audio.Some? then Ok(Some(OutMedia(Audio, m.audio.value)))
    else if m.document.Some? then Ok(Some(OutMedia(Document, m.document.value)))
    else if m.videoNote.Some? then Ok(Some(OutMedia(VideoNote, m.videoNote.value)))
    else Ok(None)
  }

  /**
   * The two orders disagree: a message carrying both a photo and a voice note
   * is stored as its photo but, sent as a reply, forwards its voice note.
   */
  lemma CaptureAndReplyOrdersDiffer(p: FileId, v: FileId)
    ensures var m := Inbound(None, Some([p]), None, None, None, Some(v), None);
      Capture(m) == Ok(Stored(None, Some("photo"), Some(p))) && ReplyContent(m) == Ok(Some(OutMedia(Voice, v)))
  {
  }

  /**
   * A captured row holds showable content exactly when the message had a
   * text or one of the six media kinds; anything else is stored empty.
   */
  lemma CaptureCarriesContent(m: Inbound)
    requires Capture(m).Ok?
    ensures CarriesContent(Capture(m).value) <==> HasText(m) || First(m, CaptureOrder).Some?
  {
    if !HasText(m) && First(m, CaptureOrder).Some? {
      KindNameRoundTrip(First(m, CaptureOrder).value);
    }
  }

  /** Only an empty photo list, reached before any other content, makes either path throw. */
  lemma TypeErrorOnlyOnEmptyPhoto(m: Inbound)
    ensures Capture(m) == TypeError <==> !HasText(m) && m.photo == Some([])
    ensures ReplyContent(m) == TypeError <==>
      !HasText(m) && m.voice.None? && m.video.None? && m.photo == Some([])
  {
  }
}

=== FILE: digits.dfy ===
/**
 * Decimal digit strings: how the bot writes a non-negative integer into text
 * (JavaScript's `toString` / template interpolation of a number) and how a
 * captured run of `\d` characters denotes a number again.
 */
module Digits {

  predicate IsDigit(c: char) {
    '0' <= c <= '9'
  }

  predicate AllDigits(s: string) {
    forall i :: 0 <= i < |s| ==> IsDigit(s[i])
  }

  /** No superfluous leading zero: the only form `toString` ever produces. */
  predicate Canonical(s: string) {
    |s| >= 1 && AllDigits(s) && (|s| > 1 ==> s[0] != '0')
  }

  function DigitChar(d: nat): (c: char)
    requires d < 10
    ensures IsDigit(c)
  {
    ('0' as int + d) as char
  }

  function DigitValue(c: char): (d: nat)
    requires IsDigit(c)
    ensures d < 10
    ensures DigitChar(d) == c
  {
    (c as int - '0' as int) as nat
  }

  /** The decimal rendering of `n`, most significant digit first. */
  function FromNat(n: nat): (s: string)
    ensures Canonical(s)
    decreases n
  {
    if n < 10 then [DigitChar(n)] else FromNat(n / 10) + [DigitChar(n % 10)]
  }

  /** The number a digit string denotes; leading zeros are allowed and carry no weight. */
  function ToNat(s: string): (n: nat)
    requires AllDigits(s)
    decreases |s|
  {
    if |s| == 0 then 0 else ToNat(s[..|s| - 1]) * 10 + DigitValue(s[|s| - 1])
  }

  lemma {:induction false} ToNatLastDigit(p: string, c: char)
    requires AllDigits(p) && IsDigit(c)
    ensures AllDigits(p + [c])
    ensures ToNat(p + [c]) == ToNat(p) * 10 + DigitValue(c)
  {
    assert (p + [c])[..|p + [c]| - 1] == p;
  }

  /** Reading back what `FromNat` wrote gives the number again. */
  lemma {:induction false} ToNatFromNat(n: nat)
    ensures ToNat(FromNat(n)) == n
    decreases n
  {
    if n < 10 {
      assert FromNat(n)[..0] == [];
    } else {
      ToNatFromNat(n / 10);
      ToNatLastDigit(FromNat(n / 10), DigitChar(n % 10));
    }
  }

  /** Hence two numbers with the same rendering are the same number. */
  lemma FromNatInjective(m: nat, n: nat)
    requires FromNat(m) == FromNat(n)
    ensures m == n
  {
    ToNatFromNat(m);
    ToNatFromNat(n);
  }

  /** A leading zero carries no weight. */
  lemma {:induction false} ToNatLeadingZero(s: string)
    requires AllDigits(s)
    ensures AllDigits("0" + s)
    ensures ToNat("0" + s) == ToNat(s)
    decreases |s|
  {
    if |s| == 0 {
      assert ("0" + s)[..0] == [];
    } else {
      var p := s[..|s| - 1];
      ToNatLeadingZero(p);
      assert "0" + s == ("0" + p) + [s[|s| - 1]];
      ToNatLastDigit("0" + p, s[|s| - 1]);
    }
  }

  /** Nor does any run of leading zeros. */
  lemma {:induction false} ToNatLeadingZeros(z: string, s: string)
    requires forall i :: 0 <= i < |z| ==> z[i] == '0'
    requires AllDigits(s)
    ensures AllDigits(z + s)
    ensures ToNat(z + s) == ToNat(s)
    decreases |z|
  {
    if |z| == 0 {
      assert z + s == s;
    } else {
      ToNatLeadingZeros(z[1..], s);
      assert z + s == "0" + (z[1..] + s);
      ToNatLeadingZero(z[1..] + s);
    }
  }

  /** A digit string that starts with a non-zero digit denotes a positive number. */
  lemma {:induction false} LeadingNonZeroPositive(s: string)
    requires |s| >= 1 && AllDigits(s) && s[0] != '0'
    ensures ToNat(s) >= 1
    decreases |s|
  {
    if |s| > 1 {
      LeadingNonZeroPositive(s[..|s| - 1]);
    }
  }

  /** Writing back what `ToNat` read gives the same string, when it had no leading zero. */
  lemma {:induction false} FromNatToNat(s: string)
    requires Canonical(s)
    ensures FromNat(ToNat(s)) == s
    decreases |s|
  {
    if |s| > 1 {
      var p := s[..|s| - 1];
      var c := s[|s| - 1];
      LeadingNonZeroPositive(p);
      FromNatToNat(p);
      assert p + [c] == s;
    }
  }

  /**
   * The bot's admin test: the sender's numeric id, converted to a string,
   * equals the configured admin id exactly.
   */
  predicate IsAdmin(sender: nat, adminId: string) {
    FromNat(sender) == adminId
  }

  /** At most one account id is the admin, whatever the configured string. */
  lemma AdminIsUnique(a: nat, b: nat, adminId: string)
    requires IsAdmin(a, adminId) && IsAdmin(b, adminId)
    ensures a == b
  {
    FromNatInjective(a, b);
  }

  /** An admin id with a leading zero, a sign or a space names nobody. */
  lemma NonCanonicalAdminIdMatchesNobody(sender: nat, adminId: string)
    requires !Canonical(adminId)
    ensures !IsAdmin(sender, adminId)
  {
  }
}

=== FILE: inbox.dfy ===
/**
 * The suggestion inbox and its reply routing, as a sequential transition
 * system. The state is the `messages` table, the process-wide
 * `suggestionClicked` map, the `unreadMessagesCount` counter and the
 * per-chat session fields `replyToUser` / `replyToMessageId`.
 */
module Inbox {
  import opened Optional
  import opened Digits
  import opened Payload
  import opened Content

  /** The author of an update: numeric id plus the name snapshot stored with a suggestion. */
  datatype Sender = Sender(id: nat, firstName: string, username: Option<string>)

  /** A row of the `messages` table; `replied` is the INTEGER column, 0 as false and 1 as true. */
  datatype Row = Row(
    id: nat,
    userId: nat,
    content: Stored,
    replied: bool,
    firstName: string,
    username: Option<string>)

  /** A session's `replyToUser` and `replyToMessageId`. */
  datatype Binding = Binding(user: nat, messageId: nat)

  /**
   * `clicked` is `suggestionClicked` keyed by user id; `sessions` holds the
   * reply binding of each chat that has one (grammY keys sessions by chat).
   */
  datatype State = State(
    rows: seq<Row>,
    clicked: map<nat, bool>,
    unread: nat,
    sessions: map<nat, Binding>)

  /** The configured `ADMIN_ID` string. */
  datatype Config = Config(adminId: string)

  /** What a handler sends out. */
  datatype Effect =
    | Answer(text: string)                  // a reply in the chat the update came from
    | Send(user: nat, content: Outgoing)    // a message to a bound user
    | ToAdmin(text: string)                 // a message to the admin id
    | Toast(text: string, alert: bool)      // the answer to a callback query

  datatype Step = Step(state: State, effects: seq<Effect>)

  const AdminMenuPrompt: string := "Выберите действие:"
  const SuggestPrompt: string := "Опишите ваше предложение или сообщение, которое вы хотели бы отправить автору бота."
  const CaptureConfirm: string := "Ваше сообщение успешно отправлено автору бота"
  const Reminder: string := "Пожалуйста, сначала нажмите кнопку \"Предложка\" для отправки сообщения автору канала!"
  const ReplyNotice: string := "На ваше сообщение получен ответ от админа канала."
  const ReplySent: string := "Ответ направлен."
  const BindAck: string := "Вы можете ответить текстом, аудио, видео или фото."
  const NotFound: string := "Сообщение не найдено."

  /** The admin notification carrying the unread count. */
  function NotifyText(count: nat): string {
    "Вам пришло сообщение. Неотвеченных сообщений: " + FromNat(count)
  }

  /** `suggestionClicked[id]` is truthy: present and true. */
  predicate Flag(s: State, user: nat) {
    user in s.clicked && s.clicked[user]
  }

  /** `ctx.session.replyToUser` is truthy: a binding exists and its user id is not 0. */
  predicate HasBinding(s: State, chat: nat) {
    chat in s.sessions && s.sessions[chat].user != 0
  }

  /** The position of the row with id `id`, as `SELECT ... WHERE id = ?` finds it. */
  function RowIndex(rows: seq<Row>, id: nat): (r: Option<nat>)
    ensures r.Some? ==> r.value < |rows| && rows[r.value].id == id
    ensures r.None? ==> forall i :: 0 <= i < |rows| ==> rows[i].id != id
    decreases |rows|
  {
    if |rows| == 0 then None
    else if rows[0].id == id then Some(0)
    else match RowIndex(rows[1..], id)
      case Some(i) => Some(i + 1)
      case None => None
  }

  /** Some row has id `id`. */
  predicate RowExists(rows: seq<Row>, id: nat) {
    exists i :: 0 <= i < |rows| && rows[i].id == id
  }

  /** The binding names an existing row and that row's sender. */
  predicate Targets(rows: seq<Row>, b: Binding) {
    exists i :: 0 <= i < |rows| && rows[i].id == b.messageId && rows[i].userId == b.user
  }

  /** `UPDATE messages SET replied = 1 WHERE id = ?`. */
  function MarkReplied(rows: seq<Row>, id: nat): (r: seq<Row>)
    ensures |r| == |rows|
    ensures forall i :: 0 <= i < |rows| ==> r[i].(replied := rows[i].replied) == rows[i]
    ensures forall i :: 0 <= i < |rows| ==> (r[i].replied <==> rows[i].replied || rows[i].id == id)
    decreases |rows|
  {
    if |rows| == 0 then []
    else [if rows[0].id == id then rows[0].(replied := true) else rows[0]] + MarkReplied(rows[1..], id)
  }

  /** The id AUTOINCREMENT gives the next row of a table whose ids are 1, 2, ..., |rows|. */
  function NextId(rows: seq<Row>): nat {
    |rows| + 1
  }

  /** Well-formedness of the state every handler keeps. */
  predicate Valid(s: State) {
    && (forall i :: 0 <= i < |s.rows| ==> s.rows[i].id == i + 1)
    && (forall i :: 0 <= i < |s.rows| ==> ExclusiveColumns(s.rows[i].content))
    && (forall c :: c in s.sessions ==> Targets(s.rows, s.sessions[c]))
  }

  /** Rows are never removed or reordered, and only `replied` ever changes, from 0 to 1. */
  predicate RowsEvolve(before: seq<Row>, after: seq<Row>) {
    && |before| <= |after|
    && (forall i :: 0 <= i < |before| ==> after[i].(replied := before[i].replied) == before[i])
    && (forall i :: 0 <= i < |before| ==> before[i].replied ==> after[i].replied)
  }

  // ---------------------------------------------------------------------------
  // The "🧕 Предложка" button.
  // ---------------------------------------------------------------------------

  /**
   * Pressing the suggestion button: the sender's flag becomes true whether or
   * not the sender is the admin; the admin gets the inbox menu, anyone else
   * the invitation to write.
   */
  function PressSuggestion(s: State, cfg: Config, sender: nat): (r: Step)
    ensures Flag(r.state, sender)
    ensures forall u :: u != sender ==> (Flag(r.state, u) <==> Flag(s, u))
    ensures r.state.rows == s.rows && r.state.unread == s.unread && r.state.sessions == s.sessions
    ensures r.effects == [Answer(if IsAdmin(sender, cfg.adminId) then AdminMenuPrompt else SuggestPrompt)]
  {
    var prompt := if IsAdmin(sender, cfg.adminId) then AdminMenuPrompt else SuggestPrompt;
    Step(s.(clicked := s.clicked[sender := true]), [Answer(prompt)])
  }

  // ---------------------------------------------------------------------------
  // The `reply-<id>` callback.
  // ---------------------------------------------------------------------------

  /**
   * A callback query in chat `chat`. A payload that does not match
   * `^reply-(\d+)$` is not this handler's. A matching one binds the chat's
   * session to the named row and its sender, or leaves it as it was and
   * raises the not-found alert.
   */
  function ReplyCallback(s: State, chat: nat, data: string): (r: Step)
    ensures r.state.rows == s.rows && r.state.clicked == s.clicked && r.state.unread == s.unread
    ensures forall c :: c != chat ==> (c in r.state.sessions <==> c in s.sessions)
    ensures forall c :: c != chat && c in s.sessions ==> r.state.sessions[c] == s.sessions[c]
    ensures !Matches(data) ==> r == Step(s, [])
    ensures Matches(data) && !RowExists(s.rows, Parse(data).value) ==> r == Step(s, [Toast(NotFound, true)])
    ensures Matches(data) && RowExists(s.rows, Parse(data).value) ==>
      && chat in r.state.sessions
      && r.state.sessions[chat].messageId == Parse(data).value
      && Targets(s.rows, r.state.sessions[chat])
      && r.effects == [Toast(BindAck, false)]
  {
    match Parse(data)
    case None => Step(s, [])
    case Some(id) =>
      match RowIndex(s.rows, id)
      case Some(i) => Step(s.(sessions := s.sessions[chat := Binding(s.rows[i].userId, id)]), [Toast(BindAck, false)])
      case None => Step(s, [Toast(NotFound, true)])
  }

  // ---------------------------------------------------------------------------
  // An ordinary inbound message: the four branches.
  // ---------------------------------------------------------------------------

  /**
   * The admin's reply through the chat's binding: mark the bound row
   * replied, send the notice and the reply content to the bound user, clear
   * the binding and decrement the counter if it is positive. If the content
   * is an empty photo list the handler throws right after the notice, so the
   * row is marked but the binding and the counter stay as they were.
   */
  function DeliverReply(s: State, chat: nat, m: Inbound): (r: Step)
    requires chat in s.sessions
    ensures var b := s.sessions[chat];
      && r.state.rows == MarkReplied(s.rows, b.messageId)
      && r.state.clicked == s.clicked
      && |r.effects| >= 1 && r.effects[0] == Send(b.user, OutText(ReplyNotice))
    ensures ReplyContent(m).Ok? ==>
      && chat !in r.state.sessions
      && r.state.sessions == s.sessions - {chat}
      && r.state.unread == (if s.unread > 0 then s.unread - 1 else 0)
      && r.effects[|r.effects| - 1] == Answer(ReplySent)
    ensures ReplyContent(m).TypeError? ==> r.state.sessions == s.sessions && r.state.unread == s.unread
    ensures var b := s.sessions[chat];
      ReplyContent(m).Ok? ==>
        r.effects == [Send(b.user, OutText(ReplyNotice))]
                     + (if ReplyContent(m).value.Some? then [Send(b.user, ReplyContent(m).value.value)] else [])
                     + [Answer(ReplySent)]
    ensures ReplyContent(m).TypeError? ==> r.effects == [Send(s.sessions[chat].user, OutText(ReplyNotice))]
  {
    var b := s.sessions[chat];
    var rows := MarkReplied(s.rows, b.messageId);
    var notice := Send(b.user, OutText(ReplyNotice));
    match ReplyContent(m)
    case TypeError => Step(s.(rows := rows), [notice])
    case Ok(c) =>
      var forwarded := if c.Some? then [Send(b.user, c.value)] else [];
      var unread := if s.unread > 0 then s.unread - 1 else 0;
      Step(State(rows, s.clicked, unread, s.sessions - {chat}), [notice] + forwarded + [Answer(ReplySent)])
  }

  /**
   * Suggestion capture: insert one row for the sender with the classified
   * content, confirm, clear the flag, count it unread and notify the admin.
   * An empty photo list throws before the insert and nothing changes.
   */
  function CaptureSuggestion(s: State, from: Sender, m: Inbound): (r: Step)
    ensures Capture(m).TypeError? ==> r == Step(s, [])
    ensures Capture(m).Ok? ==>
      && r.state.rows == s.rows + [Row(NextId(s.rows), from.id, Capture(m).value, false, from.firstName, from.username)]
      && !Flag(r.state, from.id)
      && (forall u :: u != from.id ==> (Flag(r.state, u) <==> Flag(s, u)))
      && r.state.unread == s.unread + 1
      && r.state.sessions == s.sessions
      && r.effects == [Answer(CaptureConfirm), ToAdmin(NotifyText(s.unread + 1))]
  {
    match Capture(m)
    case TypeError => Step(s, [])
    case Ok(c) =>
      var row := Row(NextId(s.rows), from.id, c, false, from.firstName, from.username);
      Step(State(s.rows + [row], s.clicked[from.id := false], s.unread + 1, s.sessions),
           [Answer(CaptureConfirm), ToAdmin(NotifyText(s.unread + 1))])
  }

  /** The four outcomes of the generic message handler. */
  datatype Branch = Deliver | CaptureIt | Remind | NotifySelf

  /**
   * Which branch handles a message: a reply binding (for the admin) wins
   * over the suggestion flag, the flag wins over the sender's role.
   */
  function Dispatch(s: State, cfg: Config, chat: nat, sender: nat): (b: Branch)
    ensures b == Deliver <==> IsAdmin(sender, cfg.adminId) && HasBinding(s, chat)
    ensures b == CaptureIt <==> !(IsAdmin(sender, cfg.adminId) && HasBinding(s, chat)) && Flag(s, sender)
    ensures b == Remind <==> !IsAdmin(sender, cfg.adminId) && !Flag(s, sender)
    ensures b == NotifySelf <==> IsAdmin(sender, cfg.adminId) && !HasBinding(s, chat) && !Flag(s, sender)
  {
    if IsAdmin(sender, cfg.adminId) && HasBinding(s, chat) then Deliver
    else if Flag(s, sender) then CaptureIt
    else if !IsAdmin(sender, cfg.adminId) then Remind
    else NotifySelf
  }

  /**
   * The generic message handler, for a message no command or keyword
   * handler consumed. It adds at most one row, and only by capture; only a
   * delivery touches the bindings, and only a capture the flags.
   */
  function OnMessage(s: State, cfg: Config, chat: nat, from: Sender, m: Inbound): (r: Step)
    ensures |r.state.rows| == |s.rows| + 1 <==> Dispatch(s, cfg, chat, from.id) == CaptureIt && Capture(m).Ok?
    ensures |r.state.rows| != |s.rows| + 1 ==> |r.state.rows| == |s.rows|
    ensures r.state.sessions != s.sessions ==> Dispatch(s, cfg, chat, from.id) == Deliver
    ensures r.state.clicked != s.clicked ==> Dispatch(s, cfg, chat, from.id) == CaptureIt
  {
    match Dispatch(s, cfg, chat, from.id)
    case Deliver => DeliverReply(s, chat, m)
    case CaptureIt => CaptureSuggestion(s, from, m)
    case Remind => Step(s, [Answer(Reminder)])
    case NotifySelf => Step(s.(unread := s.unread + 1), [ToAdmin(NotifyText(s.unread + 1))])
  }

  // ---------------------------------------------------------------------------
  // Routing of updates.
  // ---------------------------------------------------------------------------

  const SuggestionKeyword: string := "🧕 Предложка"

  /**
   * The other texts a `bot.hears` handler consumes before the generic
   * handler sees them: the menu and navigation keywords, the admin's two
   * listing keywords, and the catalog entry names.
   */
  const OtherKeywords: seq<string> := [
    "📲 Социальные сети", "📚 Полезные книги и источники", "Назад ↩️",
    "Все полученные сообщения", "Сообщения без ответа",
    "Telegram", "Instagram", "Хиджаб: Основные требования", "Вабиль: Благодатный дождь"]

  /** The two commands, registered ahead of every other handler. */
  const StartCommand: string := "start"
  const AdminCommand: string := "admin"

  /** A character that continues a command word in a Telegram message. */
  predicate IsCommandChar(c: char) {
    'a' <= c <= 'z' || 'A' <= c <= 'Z' || '0' <= c <= '9' || c == '_'
  }

  /**
   * A character after `/name` that closes the command word. Telegram marks
   * a command only when the next character is not a word character of any
   * script, nor `/`, `<` or `>`; an `@` starts a bot address instead. Here
   * every non-ASCII character is taken to continue the word.
   */
  predicate EndsCommand(c: char) {
    (c as int) < 128 && !IsCommandChar(c) && c !in "/<>@"
  }

  /**
   * `text` starts with the command `/name` and the command word ends there:
   * at the end of the text or before a character that closes it.
   */
  predicate Invokes(text: string, name: string) {
    var head := "/" + name;
    && |head| <= |text| && text[..|head|] == head
    && (|head| == |text| || EndsCommand(text[|head|]))
  }

  /**
   * After `/name`, one more character decides: the text invokes the command
   * exactly when that character closes the word. So `/start привет` is a
   * command and `/startпривет` or `/start/x` is not.
   */
  lemma CommandWordEnd(name: string, c: char, rest: string)
    ensures Invokes("/" + name + [c] + rest, name) <==> EndsCommand(c)
  {
    var text := "/" + name + [c] + rest;
    assert text[..|"/" + name|] == "/" + name;
    assert text[|"/" + name|] == c;
  }

  /** The message text invokes `/start` or `/admin`. */
  predicate IsCommand(m: Inbound) {
    m.text.Some? && (Invokes(m.text.value, StartCommand) || Invokes(m.text.value, AdminCommand))
  }

  /** A text that invokes a command begins with a slash. */
  lemma InvokerStartsWithSlash(text: string, name: string)
    requires Invokes(text, name)
    ensures |text| >= 1 && text[0] == '/'
  {
    assert text[0] == text[..|"/" + name|][0];
  }

  /** No keyword text begins with a slash, so none of them is taken for a command. */
  lemma KeywordsAreNotCommands(m: Inbound)
    requires m.text.Some? && (m.text.value == SuggestionKeyword || m.text.value in OtherKeywords)
    ensures !IsCommand(m)
  {
    var t := m.text.value;
    if Invokes(t, StartCommand) {
      InvokerStartsWithSlash(t, StartCommand);
    }
    if Invokes(t, AdminCommand) {
      InvokerStartsWithSlash(t, AdminCommand);
    }
  }

  datatype Event =
    | Command(sender: nat, text: string)
    | Press(sender: nat)
    | Keyword(sender: nat, text: string)
    | Callback(chat: nat, data: string)
    | Message(chat: nat, from: Sender, msg: Inbound)

  /**
   * Which handler an inbound message reaches: a command first, since the
   * command handlers are registered first and do not pass the update on;
   * then an exact keyword text; and only then the generic handler.
   */
  function Route(chat: nat, from: Sender, m: Inbound): (e: Event)
    ensures e.Command? <==> IsCommand(m)
    ensures e.Press? <==> m.text == Some(SuggestionKeyword)
    ensures e.Keyword? <==> m.text.Some? && m.text.value in OtherKeywords
    ensures e.Message? <==> !IsCommand(m) && !(m.text.Some? && (m.text.value == SuggestionKeyword || m.text.value in OtherKeywords))
    ensures e.Message? ==> e == Message(chat, from, m)
    ensures e.Press? ==> e == Press(from.id)
    ensures e.Keyword? ==> e == Keyword(from.id, m.text.value)
    ensures e.Command? ==> e == Command(from.id, m.text.value)
    ensures !e.Callback?
  {
    if m.text.Some? && (m.text.value == SuggestionKeyword || m.text.value in OtherKeywords) then
      KeywordsAreNotCommands(m);
      if m.text.value == SuggestionKeyword then Press(from.id) else Keyword(from.id, m.text.value)
    else if IsCommand(m) then Command(from.id, m.text.value)
    else Message(chat, from, m)
  }

  /**
   * One update. The commands and the keyword handlers other than the
   * suggestion button do not touch the inbox state; their replies, the
   * user bookkeeping of `/start` and the request logging are not modelled
   * here (`Stats` models the text `/admin` replies with).
   */
  function Apply(s: State, cfg: Config, e: Event): (r: Step)
    ensures e.Command? || e.Keyword? ==> r.state == s
    ensures r.state.rows != s.rows ==> e.Message?
    ensures |s.rows| <= |r.state.rows| <= |s.rows| + 1
  {
    match e
    case Command(_, _) => Step(s, [])
    case Press(sender) => PressSuggestion(s, cfg, sender)
    case Keyword(_, _) => Step(s, [])
    case Callback(chat, data) => ReplyCallback(s, chat, data)
    case Message(chat, from, m) => OnMessage(s, cfg, chat, from, m)
  }
}

=== FILE: inbox_properties.dfy ===
/**
 * Properties of the inbox transition system: what each branch of the
 * message handler does and does not change, the state invariant every
 * update keeps, and how the unread counter tracks the stored `replied`
 * flags.
 */
module InboxProperties {
  import opened Optional
  import opened Digits
  import opened Payload
  import opened Content
  import opened Inbox

  // ---------------------------------------------------------------------------
  // The suggestion button.
  // ---------------------------------------------------------------------------

  /** Pressing the button twice leaves the same state as pressing it once. */
  lemma PressIdempotent(s: State, cfg: Config, u: nat)
    ensures var once := PressSuggestion(s, cfg, u).state;
      PressSuggestion(once, cfg, u).state == once
  {
    var once := PressSuggestion(s, cfg, u).state;
    assert once.clicked[u := true] == once.clicked;
  }

  /**
   * Typing the suggestion keyword sets the typist's own flag and no one
   * else's, and stores nothing.
   */
  lemma TypingKeywordFlagsTypist(s: State, cfg: Config, chat: nat, from: Sender, m: Inbound)
    requires m.text == Some(SuggestionKeyword)
    ensures var r := Apply(s, cfg, Route(chat, from, m)).state;
      && Flag(r, from.id)
      && (forall u :: u != from.id ==> (Flag(r, u) <==> Flag(s, u)))
      && r.rows == s.rows
  {
  }

  // ---------------------------------------------------------------------------
  // The four branches of the message handler.
  // ---------------------------------------------------------------------------

  /**
   * A flagged sender with no reply binding in use gets exactly one new row,
   * owned by the sender and not replied; the flag is cleared, the counter
   * grows by one and the admin is told the new count.
   */
  lemma FlaggedMessageIsCaptured(s: State, cfg: Config, chat: nat, from: Sender, m: Inbound)
    requires Flag(s, from.id)
    requires !(IsAdmin(from.id, cfg.adminId) && HasBinding(s, chat))
    requires Capture(m).Ok?
    ensures var r := OnMessage(s, cfg, chat, from, m);
      && |r.state.rows| == |s.rows| + 1
      && r.state.rows[..|s.rows|] == s.rows
      && r.state.rows[|s.rows|].userId == from.id
      && r.state.rows[|s.rows|].id == |s.rows| + 1
      && !r.state.rows[|s.rows|].replied
      && r.state.rows[|s.rows|].content == Capture(m).value
      && !Flag(r.state, from.id)
      && r.state.unread == s.unread + 1
      && r.state.sessions == s.sessions
      && ToAdmin(NotifyText(s.unread + 1)) in r.effects
  {
    var r := OnMessage(s, cfg, chat, from, m);
    assert r == CaptureSuggestion(s, from, m);
    assert r.state.rows[..|s.rows|] == s.rows;
  }

  /** A flagged message whose photo list is empty throws before anything is stored. */
  lemma FlaggedEmptyPhotoChangesNothing(s: State, cfg: Config, chat: nat, from: Sender, m: Inbound)
    requires Flag(s, from.id)
    requires !(IsAdmin(from.id, cfg.adminId) && HasBinding(s, chat))
    requires Capture(m).TypeError?
    ensures OnMessage(s, cfg, chat, from, m) == Step(s, [])
  {
  }

  /**
   * The admin's own flag works like anyone's: after pressing the button, the
   * admin's next message without a binding is stored as a suggestion from
   * the admin, not answered by the self-notification.
   */
  lemma AdminPressThenMessageIsCaptured(s: State, cfg: Config, chat: nat, admin: Sender, m: Inbound)
    requires IsAdmin(admin.id, cfg.adminId)
    requires !HasBinding(s, chat)
    requires Capture(m).Ok?
    ensures var s1 := PressSuggestion(s, cfg, admin.id).state;
      var r := OnMessage(s1, cfg, chat, admin, m);
      && r.state.rows == s.rows + [Row(|s.rows| + 1, admin.id, Capture(m).value, false, admin.firstName, admin.username)]
      && !Flag(r.state, admin.id)
  {
    var s1 := PressSuggestion(s, cfg, admin.id).state;
    assert !HasBinding(s1, chat);
    FlaggedMessageIsCaptured(s1, cfg, chat, admin, m);
  }

  /** A non-admin who has not pressed the button only gets the reminder. */
  lemma UnflaggedUserIsReminded(s: State, cfg: Config, chat: nat, from: Sender, m: Inbound)
    requires !IsAdmin(from.id, cfg.adminId) && !Flag(s, from.id)
    ensures OnMessage(s, cfg, chat, from, m) == Step(s, [Answer(Reminder)])
  {
  }

  /**
   * The admin writing with neither a binding nor the flag bumps the counter
   * and notifies itself; nothing is stored.
   */
  lemma AdminWithoutTargetNotifiesSelf(s: State, cfg: Config, chat: nat, from: Sender, m: Inbound)
    requires IsAdmin(from.id, cfg.adminId) && !HasBinding(s, chat) && !Flag(s, from.id)
    ensures OnMessage(s, cfg, chat, from, m) == Step(s.(unread := s.unread + 1), [ToAdmin(NotifyText(s.unread + 1))])
  {
  }

  /**
   * The admin writing through a binding delivers the reply, whatever the
   * admin's own flag: only the bound row becomes replied, no row is added,
   * the bound user gets the notice and then the admin's content,
   * the binding is gone, the counter drops by one unless already zero, and
   * no suggestion flag changes.
   */
  lemma BoundAdminMessageIsDelivered(s: State, cfg: Config, chat: nat, from: Sender, m: Inbound)
    requires IsAdmin(from.id, cfg.adminId) && HasBinding(s, chat)
    requires ReplyContent(m).Ok?
    ensures var b := s.sessions[chat];
      var r := OnMessage(s, cfg, chat, from, m);
      && |r.state.rows| == |s.rows|
      && (forall i :: 0 <= i < |s.rows| && s.rows[i].id != b.messageId ==> r.state.rows[i] == s.rows[i])
      && (forall i :: 0 <= i < |s.rows| && s.rows[i].id == b.messageId ==> r.state.rows[i] == s.rows[i].(replied := true))
      && !HasBinding(r.state, chat)
      && r.state.unread == (if s.unread > 0 then s.unread - 1 else 0)
      && r.state.clicked == s.clicked
      && r.effects == [Send(b.user, OutText(ReplyNotice))]
                      + (if ReplyContent(m).value.Some? then [Send(b.user, ReplyContent(m).value.value)] else [])
                      + [Answer(ReplySent)]
  {
    var b := s.sessions[chat];
    var r := OnMessage(s, cfg, chat, from, m);
    assert r == DeliverReply(s, chat, m);
    forall i | 0 <= i < |s.rows| && s.rows[i].id != b.messageId
      ensures r.state.rows[i] == s.rows[i]
    {
      assert r.state.rows[i].(replied := s.rows[i].replied) == s.rows[i];
    }
  }

  /**
   * A binding serves one reply: once a reply has gone out, the admin's next
   * message in that chat is no longer a delivery.
   */
  lemma BindingServesOneReply(s: State, cfg: Config, chat: nat, from: Sender, m: Inbound)
    requires IsAdmin(from.id, cfg.adminId) && HasBinding(s, chat)
    requires ReplyContent(m).Ok?
    ensures Dispatch(OnMessage(s, cfg, chat, from, m).state, cfg, chat, from.id) != Deliver
  {
    BoundAdminMessageIsDelivered(s, cfg, chat, from, m);
  }

  /** Without a binding in use, a message never marks any row replied. */
  lemma NoBindingMarksNothing(s: State, cfg: Config, chat: nat, from: Sender, m: Inbound)
    requires !(IsAdmin(from.id, cfg.adminId) && HasBinding(s, chat))
    ensures var r := OnMessage(s, cfg, chat, from, m);
      |s.rows| <= |r.state.rows| && r.state.rows[..|s.rows|] == s.rows
  {
    var r := OnMessage(s, cfg, chat, from, m);
    assert r.state.rows[..|s.rows|] == s.rows;
  }

  /**
   * A keyword text or a command never reaches the message handler, so it is
   * never stored.
   */
  lemma KeywordIsNeverCaptured(s: State, cfg: Config, chat: nat, from: Sender, m: Inbound)
    requires IsCommand(m) || (m.text.Some? && (m.text.value == SuggestionKeyword || m.text.value in OtherKeywords))
    ensures Apply(s, cfg, Route(chat, from, m)).state.rows == s.rows
  {
  }

  /**
   * A command changes nothing in the inbox, even from a sender whose
   * suggestion flag is set: the flag stays set and nothing is stored.
   */
  lemma CommandChangesNothing(s: State, cfg: Config, chat: nat, from: Sender, m: Inbound)
    requires IsCommand(m)
    ensures Apply(s, cfg, Route(chat, from, m)).state == s
  {
  }

  // ---------------------------------------------------------------------------
  // The invariant of every update.
  // ---------------------------------------------------------------------------

  lemma TargetsKept(before: seq<Row>, after: seq<Row>, b: Binding)
    requires RowsEvolve(before, after)
    requires Targets(before, b)
    ensures Targets(after, b)
  {
    var i :| 0 <= i < |before| && before[i].id == b.messageId && before[i].userId == b.user;
    assert after[i].(replied := before[i].replied) == before[i];
  }

  /** Every update keeps rows in place and only ever turns `replied` on. */
  lemma {:induction false} ApplyRowsEvolve(s: State, cfg: Config, e: Event)
    ensures RowsEvolve(s.rows, Apply(s, cfg, e).state.rows)
  {
    var r := Apply(s, cfg, e);
    match e
    case Message(chat, from, m) =>
      match Dispatch(s, cfg, chat, from.id) {
        case Deliver =>
          assert r.state.rows == MarkReplied(s.rows, s.sessions[chat].messageId);
        case CaptureIt =>
          assert forall i :: 0 <= i < |s.rows| ==> r.state.rows[i] == s.rows[i];
        case Remind =>
        case NotifySelf =>
      }
    case Command(_, _) =>
    case Press(_) =>
    case Keyword(_, _) =>
    case Callback(_, _) =>
  }

  /** Bindings that an update leaves in place still name their row and its sender. */
  lemma KeptBindingsTarget(s: State, r: State)
    requires Valid(s)
    requires RowsEvolve(s.rows, r.rows)
    ensures forall c :: c in r.sessions && c in s.sessions && r.sessions[c] == s.sessions[c] ==> Targets(r.rows, r.sessions[c])
  {
    forall c | c in r.sessions && c in s.sessions && r.sessions[c] == s.sessions[c]
      ensures Targets(r.rows, r.sessions[c])
    {
      TargetsKept(s.rows, r.rows, s.sessions[c]);
    }
  }

  lemma CallbackKeepsValid(s: State, chat: nat, data: string)
    requires Valid(s)
    ensures Valid(ReplyCallback(s, chat, data).state)
  {
    var r := ReplyCallback(s, chat, data).state;
    KeptBindingsTarget(s, r);
  }

  lemma DeliverKeepsValid(s: State, chat: nat, m: Inbound)
    requires Valid(s) && chat in s.sessions
    ensures Valid(DeliverReply(s, chat, m).state)
  {
    var r := DeliverReply(s, chat, m).state;
    assert RowsEvolve(s.rows, r.rows);
    KeptBindingsTarget(s, r);
    forall i | 0 <= i < |r.rows|
      ensures r.rows[i].id == i + 1 && ExclusiveColumns(r.rows[i].content)
    {
      assert r.rows[i].(replied := s.rows[i].replied) == s.rows[i];
    }
  }

  lemma CaptureKeepsValid(s: State, from: Sender, m: Inbound)
    requires Valid(s)
    ensures Valid(CaptureSuggestion(s, from, m).state)
  {
    var r := CaptureSuggestion(s, from, m).state;
    assert forall i :: 0 <= i < |s.rows| ==> r.rows[i] == s.rows[i];
    KeptBindingsTarget(s, r);
  }

  /**
   * Every update keeps the state well-formed: ids follow insertion order,
   * each row has its text or its media columns non-NULL but not both, and
   * each binding names an existing row together with that row's sender.
   */
  lemma {:induction false} ApplyKeepsValid(s: State, cfg: Config, e: Event)
    requires Valid(s)
    ensures Valid(Apply(s, cfg, e).state)
  {
    match e
    case Callback(chat, data) =>
      CallbackKeepsValid(s, chat, data);
    case Message(chat, from, m) =>
      match Dispatch(s, cfg, chat, from.id) {
        case Deliver => DeliverKeepsValid(s, chat, m);
        case CaptureIt => CaptureKeepsValid(s, from, m);
        case Remind =>
        case NotifySelf =>
      }
    case Command(_, _) =>
    case Press(_) =>
    case Keyword(_, _) =>
  }

  // ---------------------------------------------------------------------------
  // The unread counter against the stored flags.
  // ---------------------------------------------------------------------------

  /** The number of rows with `replied = 0`. */
  function Unreplied(rows: seq<Row>): nat
    decreases |rows|
  {
    if |rows| == 0 then 0 else (if rows[0].replied then 0 else 1) + Unreplied(rows[1..])
  }

  /** The counter agrees with the table. */
  predicate InSync(s: State) {
    s.unread == Unreplied(s.rows)
  }

  lemma {:induction false} UnrepliedAppend(rows: seq<Row>, row: Row)
    ensures Unreplied(rows + [row]) == Unreplied(rows) + (if row.replied then 0 else 1)
    decreases |rows|
  {
    if |rows| > 0 {
      assert (rows + [row])[1..] == rows[1..] + [row];
      UnrepliedAppend(rows[1..], row);
    }
  }

  lemma MarkAbsent(rows: seq<Row>, id: nat)
    requires forall i :: 0 <= i < |rows| ==> rows[i].id != id
    ensures MarkReplied(rows, id) == rows
  {
    var r := MarkReplied(rows, id);
    forall i | 0 <= i < |rows|
      ensures r[i] == rows[i]
    {
      assert r[i].(replied := rows[i].replied) == rows[i];
    }
  }

  /** Marking the one row with a given id lowers the unreplied count by one exactly when that row was unreplied. */
  lemma {:induction false} UnrepliedMarkOne(rows: seq<Row>, id: nat, k: nat)
    requires k < |rows| && rows[k].id == id
    requires forall j :: 0 <= j < |rows| && j != k ==> rows[j].id != id
    ensures Unreplied(MarkReplied(rows, id)) == Unreplied(rows) - (if rows[k].replied then 0 else 1)
    decreases |rows|
  {
    var r := MarkReplied(rows, id);
    assert r[1..] == MarkReplied(rows[1..], id);
    if k == 0 {
      MarkAbsent(rows[1..], id);
    } else {
      UnrepliedMarkOne(rows[1..], id, k - 1);
    }
  }

  /** Capturing a suggestion keeps the counter in step with the table. */
  lemma CaptureKeepsSync(s: State, from: Sender, m: Inbound)
    requires InSync(s)
    ensures InSync(CaptureSuggestion(s, from, m).state)
  {
    if Capture(m).Ok? {
      UnrepliedAppend(s.rows, Row(NextId(s.rows), from.id, Capture(m).value, false, from.firstName, from.username));
    }
  }

  /** Replying to a row that was still unreplied keeps the counter in step with the table. */
  lemma FirstReplyKeepsSync(s: State, chat: nat, m: Inbound)
    requires Valid(s) && InSync(s)
    requires chat in s.sessions
    requires s.rows[s.sessions[chat].messageId - 1].replied == false
    requires ReplyContent(m).Ok?
    ensures InSync(DeliverReply(s, chat, m).state)
  {
    var id := s.sessions[chat].messageId;
    UnrepliedMarkOne(s.rows, id, id - 1);
  }

  /**
   * Replying again to a row that is already replied still decrements the
   * counter, so the counter falls one below the table's count.
   */
  lemma RepeatReplyDrifts(s: State, chat: nat, m: Inbound)
    requires Valid(s) && InSync(s) && s.unread > 0
    requires chat in s.sessions
    requires s.rows[s.sessions[chat].messageId - 1].replied
    requires ReplyContent(m).Ok?
    ensures var r := DeliverReply(s, chat, m).state;
      r.unread + 1 == Unreplied(r.rows)
  {
    var id := s.sessions[chat].messageId;
    UnrepliedMarkOne(s.rows, id, id - 1);
  }

  /** The admin's self-notification raises the counter with no row behind it. */
  lemma SelfNotifyDrifts(s: State, cfg: Config, chat: nat, from: Sender, m: Inbound)
    requires InSync(s)
    requires IsAdmin(from.id, cfg.adminId) && !HasBinding(s, chat) && !Flag(s, from.id)
    ensures var r := OnMessage(s, cfg, chat, from, m).state;
      r.unread == Unreplied(r.rows) + 1
  {
  }
}

=== FILE: listing.dfy ===
/**
 * How the admin's two listing keywords show one stored row: its text with
 * the sender line, or its media re-sent by kind with the sender line as
 * caption, each with a "Ответить" button whose payload is `reply-<id>`.
 * Which rows the store hands over is not part of this model.
 */
module Listing {
  import opened Optional
  import opened Digits
  import opened Payload
  import opened Content
  import opened Inbox

  datatype Listed =
    | ListedText(text: string, button: string)
    | ListedMedia(kind: MediaKind, file: Option<FileId>, caption: string, button: string)

  /** The sender line; a NULL username is interpolated as the text `null`. */
  function UserInfo(row: Row): string {
    "Сообщение от " + row.firstName + " (@" + ValueOr(row.username, "null") + ", ID: " + FromNat(row.userId) + ")"
  }

  /**
   * One row as listed, or nothing when the row has no truthy text and its
   * `media_type` is none of the six kinds.
   */
  function RenderRow(row: Row): (r: Option<Listed>)
    ensures r.Some? <==> CarriesContent(row.content)
    ensures r.Some? ==> Parse(r.value.button) == Some(row.id)
    ensures r.Some? && r.value.ListedMedia? ==> row.content.mediaType == Some(KindName(r.value.kind))
  {
    FormatThenParse(row.id);
    if row.content.message.Some? && row.content.message.value != "" then
      Some(ListedText(UserInfo(row) + ": " + row.content.message.value, Format(row.id)))
    else if row.content.mediaType.Some? && KindFromName(row.content.mediaType.value).Some? then
      Some(ListedMedia(KindFromName(row.content.mediaType.value).value, row.content.mediaId, UserInfo(row), Format(row.id)))
    else None
  }

  /**
   * A captured suggestion is listed as what was captured: its text, or the
   * same media kind with the same file id. A message that carried neither
   * is stored with empty type and id and never listed, so no button can
   * ever answer it.
   */
  lemma CapturedRowIsListed(id: nat, from: Sender, m: Inbound)
    requires Capture(m).Ok?
    ensures var row := Row(id, from.id, Capture(m).value, false, from.firstName, from.username);
      && (HasText(m) ==> RenderRow(row) == Some(ListedText(UserInfo(row) + ": " + m.text.value, Format(id))))
      && (!HasText(m) && First(m, CaptureOrder).Some? ==>
            var k := First(m, CaptureOrder).value;
            RenderRow(row) == Some(ListedMedia(k, FileOf(m, k), UserInfo(row), Format(id))))
      && (!HasText(m) && First(m, CaptureOrder).None? ==> RenderRow(row) == None)
  {
    if !HasText(m) && First(m, CaptureOrder).Some? {
      KindNameRoundTrip(First(m, CaptureOrder).value);
    }
  }

  /**
   * Pressing the button under a listed row, in any chat, binds that chat's
   * session to the row's sender and id.
   */
  lemma ButtonBindsSender(s: State, chat: nat, i: nat)
    requires Valid(s) && i < |s.rows|
    requires RenderRow(s.rows[i]).Some?
    ensures var r := ReplyCallback(s, chat, RenderRow(s.rows[i]).value.button);
      && chat in r.state.sessions
      && r.state.sessions[chat] == Binding(s.rows[i].userId, s.rows[i].id)
      && r.effects == [Toast(BindAck, false)]
  {
    var id := s.rows[i].id;
    assert RowIndex(s.rows, id).Some?;
  }
}

=== FILE: optional.dfy ===
/**
 * A value that may be missing. The bot meets three kinds of absence: a NULL
 * column, a field an inbound message does not carry, and a lookup that
 * found no row. All three are `None` here.
 */
module Optional {

  datatype Option<T> = None | Some(value: T)

  /** The carried value, or `fallback` when it is missing. */
  function ValueOr<T>(o: Option<T>, fallback: T): T {
    if o.Some? then o.value else fallback
  }
}

=== FILE: payload.dfy ===
/**
 * The callback payload of the "Ответить" button under each listed inbox
 * message: written as `reply-<id>` and recognised by the pattern
 * `^reply-(\d+)$`, whose captured group names the inbox row.
 */
module Payload {
  import opened Optional
  import opened Digits

  const Prefix: string := "reply-"

  /** The payload the listing attaches to the row with id `id`. */
  function Format(id: nat): (p: string)
    ensures Matches(p)
  {
    Prefix + FromNat(id)
  }

  /**
   * `^reply-(\d+)$` without the multiline flag: the literal prefix at the
   * very start, then one or more ASCII digits running to the very end.
   */
  predicate Matches(s: string) {
    |s| > |Prefix| && s[..|Prefix|] == Prefix && AllDigits(s[|Prefix|..])
  }

  /** The captured group of a matching payload. */
  function Group(s: string): (g: string)
    requires Matches(s)
    ensures |g| >= 1 && AllDigits(g) && s == Prefix + g
  {
    s[|Prefix|..]
  }

  /**
   * The row id the callback handler looks up: the captured digits, read as
   * a number (the store compares them against the integer key), or nothing
   * when the payload does not match and the handler does not run.
   */
  function Parse(s: string): (r: Option<nat>)
    ensures r.Some? <==> Matches(s)
  {
    if Matches(s) then Some(ToNat(Group(s))) else None
  }

  /** A scanner that recognises and reads a payload in one left-to-right pass. */
  method Scan(s: string) returns (r: Option<nat>)
    ensures r == Parse(s)
  {
    if |s| <= |Prefix| || s[..|Prefix|] != Prefix {
      return None;
    }
    var g := s[|Prefix|..];
    var acc := 0;
    var j := 0;
    while j < |g|
      invariant j <= |g|
      invariant AllDigits(g[..j])
      invariant acc == ToNat(g[..j])
    {
      if !IsDigit(g[j]) {
        return None;
      }
      ToNatLastDigit(g[..j], g[j]);
      assert g[..j + 1] == g[..j] + [g[j]];
      acc := acc * 10 + DigitValue(g[j]);
      j := j + 1;
    }
    assert g[..j] == g;
    return Some(acc);
  }

  /** Every payload the bot writes is recognised and names the row it was written for. */
  lemma FormatThenParse(id: nat)
    ensures Parse(Format(id)) == Some(id)
  {
    assert Group(Format(id)) == FromNat(id);
    ToNatFromNat(id);
  }

  /** A recognised payload without a leading zero is exactly what the bot writes for its id. */
  lemma ParseThenFormat(s: string)
    requires Matches(s) && Canonical(Group(s))
    ensures Parse(s).Some? && Format(Parse(s).value) == s
  {
    FromNatToNat(Group(s));
  }

  /** Payloads written for different rows differ. */
  lemma FormatInjective(a: nat, b: nat)
    requires Format(a) == Format(b)
    ensures a == b
  {
    FormatThenParse(a);
    FormatThenParse(b);
  }

  /** A suffix with any non-digit character is refused. */
  lemma NonDigitSuffixRefused(d: string, k: nat)
    requires k < |d| && !IsDigit(d[k])
    ensures Parse(Prefix + d) == None
  {
    assert (Prefix + d)[|Prefix|..][k] == d[k];
  }

  /** Anything before the prefix makes the payload unrecognised (the pattern is anchored at `^`). */
  lemma LeadingCharactersRefused(x: string, id: nat)
    requires |x| > 0
    ensures Parse(x + Format(id)) == None
  {
    var s := x + Format(id);
    assert s[|x|] == 'r';
    if |x| >= |Prefix| {
      assert s[|Prefix|..][|x| - |Prefix|] == 'r';
    } else {
      assert s[..|Prefix|][|x|] == 'r' != Prefix[|x|];
    }
  }

  /** Anything but digits after the id makes the payload unrecognised (the pattern is anchored at `$`). */
  lemma TrailingCharactersRefused(id: nat, y: string, k: nat)
    requires k < |y| && !IsDigit(y[k])
    ensures Parse(Format(id) + y) == None
  {
    var s := Format(id) + y;
    assert s[|Prefix|..][|FromNat(id)| + k] == y[k];
  }

  /**
   * Leading zeros are accepted and ignored: `reply-007` addresses row 7.
   * Any run of zeros before an id gives a payload the bot never builds
   * that still looks up the same row.
   */
  lemma LeadingZerosAlias(z: string, n: nat)
    requires |z| >= 1 && forall i :: 0 <= i < |z| ==> z[i] == '0'
    ensures Parse(Prefix + z + FromNat(n)) == Some(n)
    ensures Prefix + z + FromNat(n) != Format(n)
  {
    var s := Prefix + z + FromNat(n);
    ToNatLeadingZeros(z, FromNat(n));
    assert s[|Prefix|..] == z + FromNat(n);
    ToNatFromNat(n);
    assert |s| > |Format(n)|;
  }
}

=== FILE: scenarios.dfy ===
/**
 * A complete suggestion and reply, traced through the transition system:
 * user 111 presses the button and writes "Hello"; the admin (id 7, in its
 * private chat 7) presses "Ответить" under row 1 and writes "Hi back".
 */
module Scenarios {
  import opened Optional
  import opened Digits
  import opened Payload
  import opened Content
  import opened Inbox

  function TextMessage(t: string): Inbound {
    Inbound(Some(t), None, None, None, None, None, None)
  }

  const Cfg: Config := Config("7")
  const User: Sender := Sender(111, "A", None)
  const Admin: Sender := Sender(7, "Admin", Some("admin"))
  const HelloRow: Row := Row(1, 111, Stored(Some("Hello"), None, None), false, "A", None)

  lemma Ids()
    ensures IsAdmin(7, "7") && !IsAdmin(111, "7")
  {
    assert FromNat(7) == "7";
    assert FromNat(111) == FromNat(11) + "1";
  }

  lemma PressStep(s0: State)
    requires s0 == State([], map[], 0, map[])
    ensures Apply(s0, Cfg, Press(111)).state == State([], map[111 := true], 0, map[])
  {
  }

  lemma HelloStep(s1: State)
    requires s1 == State([], map[111 := true], 0, map[])
    ensures var r := Apply(s1, Cfg, Message(111, User, TextMessage("Hello")));
      && r.state == State([HelloRow], map[111 := false], 1, map[])
      && r.effects == [Answer(CaptureConfirm), ToAdmin(NotifyText(1))]
  {
    Ids();
    assert Dispatch(s1, Cfg, 111, 111) == CaptureIt;
    assert Capture(TextMessage("Hello")) == Ok(Stored(Some("Hello"), None, None));
  }

  lemma BindStep(s2: State)
    requires s2 == State([HelloRow], map[111 := false], 1, map[])
    ensures Apply(s2, Cfg, Callback(7, "reply-1")).state == s2.(sessions := map[7 := Binding(111, 1)])
  {
    assert Format(1) == "reply-1";
    FormatThenParse(1);
    assert RowIndex(s2.rows, 1) == Some(0);
  }

  lemma ReplyStep(s3: State)
    requires s3 == State([HelloRow], map[111 := false], 1, map[7 := Binding(111, 1)])
    ensures var r := Apply(s3, Cfg, Message(7, Admin, TextMessage("Hi back")));
      && r.state == State([HelloRow.(replied := true)], map[111 := false], 0, map[])
      && r.effects == [Send(111, OutText(ReplyNotice)), Send(111, OutText("Hi back")), Answer(ReplySent)]
  {
    Ids();
    assert Dispatch(s3, Cfg, 7, 7) == Deliver;
    assert s3.sessions - {7} == map[];
  }

  /** The whole trace: one row stored and then answered, the counter back at 0 and no binding left. */
  lemma HelloHiBack()
    ensures
      var s0 := State([], map[], 0, map[]);
      var s1 := Apply(s0, Cfg, Press(111)).state;
      var step2 := Apply(s1, Cfg, Message(111, User, TextMessage("Hello")));
      var s3 := Apply(step2.state, Cfg, Callback(7, "reply-1")).state;
      var step4 := Apply(s3, Cfg, Message(7, Admin, TextMessage("Hi back")));
      && Flag(s1, 111)
      && step2.state.rows == [HelloRow]
      && !Flag(step2.state, 111)
      && step2.effects == [Answer(CaptureConfirm), ToAdmin(NotifyText(1))]
      && s3.sessions == map[7 := Binding(111, 1)]
      && step4.state.rows == [HelloRow.(replied := true)]
      && step4.effects == [Send(111, OutText(ReplyNotice)), Send(111, OutText("Hi back")), Answer(ReplySent)]
      && step4.state.sessions == map[]
      && step4.state.unread == 0
  {
    var s0 := State([], map[], 0, map[]);
    PressStep(s0);
    var s1 := Apply(s0, Cfg, Press(111)).state;
    HelloStep(s1);
    var s2 := Apply(s1, Cfg, Message(111, User, TextMessage("Hello"))).state;
    BindStep(s2);
    var s3 := Apply(s2, Cfg, Callback(7, "reply-1")).state;
    ReplyStep(s3);
  }
}

=== FILE: stats.dfy ===
/**
 * The `/admin` statistics text: four headline counts, then one line per
 * social network and one per book, each joining the all-time count with
 * the same-named count for today.
 */
module Stats {
  import opened Digits

  /** A grouped all-time count, as the store reports it. */
  datatype Total = Total(name: string, total: nat)

  /** A grouped count for today, as the store reports it. */
  datatype Today = Today(name: string, today: nat)

  /** One rendered line's data. */
  datatype Line = Line(name: string, total: nat, today: nat)

  datatype Usage = Usage(
    totalStarts: nat, todayStarts: nat, totalInteractions: nat, todayInteractions: nat,
    totalSocial: seq<Total>, todaySocial: seq<Today>,
    totalPromo: seq<Total>, todayPromo: seq<Today>)

  /** `todays.find(t => t.name === name)?.today || 0`: the first same-named entry's count, else 0. */
  function TodayOf(todays: seq<Today>, name: string): (n: nat)
    ensures forall j :: (0 <= j < |todays| && todays[j].name == name &&
      (forall k :: 0 <= k < j ==> todays[k].name != name)) ==> n == todays[j].today
    ensures (forall j :: 0 <= j < |todays| ==> todays[j].name != name) ==> n == 0
    decreases |todays|
  {
    if |todays| == 0 then 0
    else if todays[0].name == name then todays[0].today
    else TodayOf(todays[1..], name)
  }

  /** The loop over the all-time entries, in their order. */
  function Join(totals: seq<Total>, todays: seq<Today>): (r: seq<Line>)
    ensures |r| == |totals|
    ensures forall i :: 0 <= i < |totals| ==>
      r[i].name == totals[i].name && r[i].total == totals[i].total && r[i].today == TodayOf(todays, totals[i].name)
    decreases |totals|
  {
    if |totals| == 0 then []
    else [Line(totals[0].name, totals[0].total, TodayOf(todays, totals[0].name))] + Join(totals[1..], todays)
  }

  function RenderLine(l: Line): string {
    l.name + " - Всего: " + FromNat(l.total) + ", Сегодня: " + FromNat(l.today) + "\n"
  }

  /** The texts of `ls`, rendered one by one and joined in order. */
  function ConcatMap<T>(render: T -> string, ls: seq<T>): string
    decreases |ls|
  {
    if |ls| == 0 then "" else render(ls[0]) + ConcatMap(render, ls[1..])
  }

  /** A section of the report: one rendered line per entry. */
  function RenderLines(ls: seq<Line>): string {
    ConcatMap(RenderLine, ls)
  }

  const Denied: string := "У вас нет прав администратора!"

  const StatsTitle: string := "Статистика использования бота:"
  const TotalStartsLabel: string := "Всего запусков: "
  const TodayStartsLabel: string := "Использовали бота сегодня: "
  const TotalInteractionsLabel: string := "Всего взаимодействий: "
  const TodayInteractionsLabel: string := "Взаимодействий сегодня: "
  const SocialHeading: string := "Запросы на социальные сети:"
  const BooksHeading: string := "Запросы на книги:"

  function CountLine(caption: string, n: nat): string {
    caption + FromNat(n) + "\n"
  }

  /** The title and the four headline counts, closed by a blank line. */
  function Header(u: Usage): string {
    StatsTitle + "\n"
    + CountLine(TotalStartsLabel, u.totalStarts)
    + CountLine(TodayStartsLabel, u.todayStarts)
    + CountLine(TotalInteractionsLabel, u.totalInteractions)
    + CountLine(TodayInteractionsLabel, u.todayInteractions)
    + "\n"
  }

  const SocialTitle: string := SocialHeading + "\n"
  const BooksLine: string := BooksHeading + "\n"
  const BooksTitle: string := "\n" + BooksLine

  /** The reply to `/admin`: the statistics for the admin, a refusal for anyone else. */
  function AdminReport(sender: nat, adminId: string, u: Usage): (r: string)
    ensures IsAdmin(sender, adminId) ==> Header(u) <= r
    ensures !IsAdmin(sender, adminId) ==> r == Denied
  {
    if IsAdmin(sender, adminId) then
      Header(u) + SocialTitle + RenderLines(Join(u.totalSocial, u.todaySocial))
      + BooksTitle + RenderLines(Join(u.totalPromo, u.todayPromo))
    else Denied
  }

  lemma {:induction false} ConcatMapAppend<T>(render: T -> string, a: seq<T>, b: seq<T>)
    ensures ConcatMap(render, a + b) == ConcatMap(render, a) + ConcatMap(render, b)
    decreases |a|
  {
    if |a| == 0 {
      assert a + b == b;
    } else {
      assert (a + b)[1..] == a[1..] + b;
      ConcatMapAppend(render, a[1..], b);
    }
  }

  lemma ConcatMapInPlace<T>(render: T -> string, ls: seq<T>, i: nat)
    requires i < |ls|
    ensures ConcatMap(render, ls) == ConcatMap(render, ls[..i]) + render(ls[i]) + ConcatMap(render, ls[i + 1..])
  {
    var pre, rest := ls[..i], ls[i..];
    assert ls == pre + rest;
    ConcatMapAppend(render, pre, rest);
    assert rest[1..] == ls[i + 1..];
  }

  /** The i-th line of a section is rendered from the i-th entry, between the lines before and after it. */
  lemma LineInPlace(ls: seq<Line>, i: nat)
    requires i < |ls|
    ensures RenderLines(ls) == RenderLines(ls[..i]) + RenderLine(ls[i]) + RenderLines(ls[i + 1..])
  {
    ConcatMapInPlace(RenderLine, ls, i);
  }

  /** The number of line breaks in a text. */
  function Breaks(s: string): nat
    decreases |s|
  {
    if |s| == 0 then 0 else (if s[0] == '\n' then 1 else 0) + Breaks(s[1..])
  }

  lemma {:induction false} BreaksConcat(a: string, b: string)
    ensures Breaks(a + b) == Breaks(a) + Breaks(b)
    decreases |a|
  {
    if |a| == 0 {
      assert a + b == b;
    } else {
      assert (a + b)[1..] == a[1..] + b;
      BreaksConcat(a[1..], b);
    }
  }

  lemma {:induction false} NoBreaks(s: string)
    requires forall i :: 0 <= i < |s| ==> s[i] != '\n'
    ensures Breaks(s) == 0
    decreases |s|
  {
    if |s| > 0 {
      NoBreaks(s[1..]);
    }
  }

  lemma OneBreakPerLine(l: Line)
    requires forall i :: 0 <= i < |l.name| ==> l.name[i] != '\n'
    ensures Breaks(RenderLine(l)) == 1
  {
    var a := l.name + " - Всего: ";
    var b := FromNat(l.total) + ", Сегодня: ";
    var c := FromNat(l.today);
    assert RenderLine(l) == a + b + c + "\n";
    NoBreaks(a);
    NoBreaks(b);
    NoBreaks(c);
    BreaksConcat(a, b);
    BreaksConcat(a + b, c);
    BreaksConcat(a + b + c, "\n");
  }

  /** Names without line breaks give a section with exactly one line per all-time entry. */
  lemma {:induction false} OneLinePerTotal(totals: seq<Total>, todays: seq<Today>)
    requires SingleLineNames(totals)
    ensures Breaks(RenderLines(Join(totals, todays))) == |totals|
    decreases |totals|
  {
    if |totals| > 0 {
      var ls := Join(totals, todays);
      assert ls[1..] == Join(totals[1..], todays);
      OneBreakPerLine(ls[0]);
      OneLinePerTotal(totals[1..], todays);
      BreaksConcat(RenderLine(ls[0]), RenderLines(ls[1..]));
      assert RenderLines(ls) == RenderLine(ls[0]) + RenderLines(ls[1..]);
    }
  }

  /** A name with no entry for today is reported with today's count 0. */
  lemma MissingTodayIsZero(totals: seq<Total>, todays: seq<Today>, i: nat)
    requires i < |totals|
    requires forall j :: 0 <= j < |todays| ==> todays[j].name != totals[i].name
    ensures Join(totals, todays)[i].today == 0
  {
  }

  /** Names without line breaks; catalog names are single-line. */
  predicate SingleLineNames(totals: seq<Total>) {
    forall i, k :: 0 <= i < |totals| && 0 <= k < |totals[i].name| ==> totals[i].name[k] != '\n'
  }

  lemma NewlineBreaks()
    ensures Breaks("\n") == 1
  {
    assert "\n"[1..] == [];
  }

  lemma CountLineBreaks(caption: string, n: nat)
    requires forall i :: 0 <= i < |caption| ==> caption[i] != '\n'
    ensures Breaks(CountLine(caption, n)) == 1
  {
    NoBreaks(caption);
    NoBreaks(FromNat(n));
    NewlineBreaks();
    BreaksConcat(caption, FromNat(n));
    BreaksConcat(caption + FromNat(n), "\n");
  }

  lemma HeaderBreaks(u: Usage)
    ensures Breaks(Header(u)) == 6
  {
    var l0 := StatsTitle + "\n";
    var l1 := CountLine(TotalStartsLabel, u.totalStarts);
    var l2 := CountLine(TodayStartsLabel, u.todayStarts);
    var l3 := CountLine(TotalInteractionsLabel, u.totalInteractions);
    var l4 := CountLine(TodayInteractionsLabel, u.todayInteractions);
    HeadingLineBreaks(StatsTitle);
    CountLineBreaks(TotalStartsLabel, u.totalStarts);
    CountLineBreaks(TodayStartsLabel, u.todayStarts);
    CountLineBreaks(TotalInteractionsLabel, u.totalInteractions);
    CountLineBreaks(TodayInteractionsLabel, u.todayInteractions);
    NewlineBreaks();
    SumBreaks(l0, l1, l2, l3, l4, "\n");
  }

  lemma SumBreaks(l0: string, l1: string, l2: string, l3: string, l4: string, l5: string)
    ensures Breaks(l0 + l1 + l2 + l3 + l4 + l5) == Breaks(l0) + Breaks(l1) + Breaks(l2) + Breaks(l3) + Breaks(l4) + Breaks(l5)
  {
    BreaksConcat(l0, l1);
    BreaksConcat(l0 + l1, l2);
    BreaksConcat(l0 + l1 + l2, l3);
    BreaksConcat(l0 + l1 + l2 + l3, l4);
    BreaksConcat(l0 + l1 + l2 + l3 + l4, l5);
  }

  lemma HeadingLineBreaks(heading: string)
    requires forall i :: 0 <= i < |heading| ==> heading[i] != '\n'
    ensures Breaks(heading + "\n") == 1
  {
    NoBreaks(heading);
    NewlineBreaks();
    BreaksConcat(heading, "\n");
  }

  lemma TitleBreaks()
    ensures Breaks(SocialTitle) == 1 && Breaks(BooksTitle) == 2
  {
    HeadingLineBreaks(SocialHeading);
    HeadingLineBreaks(BooksHeading);
    NewlineBreaks();
    BreaksConcat("\n", BooksLine);
  }

  /**
   * The i-th social line of the admin's report is rendered from the i-th
   * all-time social entry with today's social count for the same name,
   * right after the header, the section title and the lines before it.
   */
  lemma SocialLineInReport(sender: nat, adminId: string, u: Usage, i: nat)
    requires IsAdmin(sender, adminId) && i < |u.totalSocial|
    ensures var t := u.totalSocial[i];
      Header(u) + SocialTitle + RenderLines(Join(u.totalSocial, u.todaySocial)[..i])
        + RenderLine(Line(t.name, t.total, TodayOf(u.todaySocial, t.name)))
        <= AdminReport(sender, adminId, u)
  {
    var ls := Join(u.totalSocial, u.todaySocial);
    LineInPlace(ls, i);
  }

  /**
   * The i-th book line of the admin's report is rendered from the i-th
   * all-time book entry with today's book count for the same name, right
   * after the whole social section, the book title and the lines before it.
   */
  lemma BookLineInReport(sender: nat, adminId: string, u: Usage, i: nat)
    requires IsAdmin(sender, adminId) && i < |u.totalPromo|
    ensures var t := u.totalPromo[i];
      Header(u) + SocialTitle + RenderLines(Join(u.totalSocial, u.todaySocial)) + BooksTitle
        + RenderLines(Join(u.totalPromo, u.todayPromo)[..i])
        + RenderLine(Line(t.name, t.total, TodayOf(u.todayPromo, t.name)))
        <= AdminReport(sender, adminId, u)
  {
    var ls := Join(u.totalPromo, u.todayPromo);
    LineInPlace(ls, i);
  }

  /**
   * The admin's report has six header lines, the social networks' title
   * line, one line per social network entry, a blank line and the books'
   * title line, then one line per book entry; anyone else gets the refusal.
   */
  lemma ReportLineCount(sender: nat, adminId: string, u: Usage)
    requires SingleLineNames(u.totalSocial) && SingleLineNames(u.totalPromo)
    ensures IsAdmin(sender, adminId) ==> Breaks(AdminReport(sender, adminId, u)) == 9 + |u.totalSocial| + |u.totalPromo|
    ensures !IsAdmin(sender, adminId) ==> AdminReport(sender, adminId, u) == Denied
  {
    if IsAdmin(sender, adminId) {
      var h, s1, b1 := Header(u), RenderLines(Join(u.totalSocial, u.todaySocial)), RenderLines(Join(u.totalPromo, u.todayPromo));
      HeaderBreaks(u);
      TitleBreaks();
      OneLinePerTotal(u.totalSocial, u.todaySocial);
      OneLinePerTotal(u.totalPromo, u.todayPromo);
      BreaksConcat(h, SocialTitle);
      BreaksConcat(h + SocialTitle, s1);
      BreaksConcat(h + SocialTitle + s1, BooksTitle);
      BreaksConcat(h + SocialTitle + s1 + BooksTitle, b1);
    }
  }
}
